=== FILE: README.md ===
# virtualized-ui hooks, modelled in Dafny

This project models the decision logic of the two headless hooks of
virtualized-ui: `useVirtualList` and `useVirtualTable`. Each hook sits on top of
a virtualizer library (windowing, measurement, scrolling) and, for the table, a
table library (row model, sorting, selection, expansion). What the hooks add is
small integer-valued logic. The model covers that logic, except for what "## Left out" lists:

- the focus controller (`setFocusedItem` / `setFocusedRow`): clamping to
  `[-1, n-1]`, callback-or-internal write, scroll-into-view;
- the keyboard handlers: ArrowDown/ArrowUp/Home/End in both hooks, Enter and
  Space in the table;
- prepend scroll anchoring in the list;
- the bottom-edge test of `handleScroll`;
- column ids, the effective column order and `reorderColumn`;
- the controlled/uncontrolled state handlers of the table;
- the table's per-row size estimate.

The calls that focus handling, keyboard handling and the scroll-edge handler
make are `Effect` values: `PreventDefault`, `NotifyFocus(i)`, `ScrollTo(i, align)`,
`ToggleExpand(i)`, `ToggleSelect(i)` and `LoadMore`, listed in the order the hook
makes them. A state handler's call to its host callback is the `notified` field
of `Ownership.Committed`. The scroll that prepend anchoring applies is
`AnchorStep.scrollDelta`. Hook state is an immutable record, and every operation
is a pure function of it.

Modules:

- `Wrappers`: `Option`, with `GetOr` as JavaScript's `??`.
- `Effects`: the effect list.
- `Seqs`: `IndexOf` (JavaScript `indexOf` / `findIndex`), plus `RemoveAt` and
  `InsertAt` (`splice`).
- `Ownership`: the dual-ownership pattern, written once. It covers the
  controlled value, the internal value and the optional callback, plus
  TanStack's `Updater`.
- `Focus`: clamping, `SetFocused` (shared by both hooks) and the navigation
  keys.
- `ScrollEdge`: `handleScroll`, shared by both hooks.
- `Anchor`: the prepend-anchoring effect as a step function over
  `(prevFirstId, prevLength)`.
- `Columns`: `getColumnId`, the column-order fallback and `reorderColumn`.
- `VirtualList`, `VirtualTable`: the hook-specific parts. These are the
  keyboard handlers, the scroll helpers and `estimateSize`.

Notes on the hooks' behaviour:

- Whether a focus write goes to the callback or to internal state depends only
  on whether a callback was supplied, not on whether `focusedIndex` is
  controlled. So an uncontrolled hook with a callback never changes its own
  focus (`Focus.ObservedAfterSetFocused`).
- Clamping also covers the empty list: any request yields -1.
- The scroll-into-view request uses the virtualizer's `'auto'` alignment.

## Model

| member | source | states |
|---|---|---|
| Seqs.IndexOf | packages/core/src/VirtualTable/useVirtualTable.ts:219-220 | the result is -1 exactly when the element is absent; otherwise it is the first position holding the element |
| Seqs.RemoveAt | packages/core/src/VirtualTable/useVirtualTable.ts:224 | `splice(i, 1)`: one element shorter; the elements before `i` stay, the ones after shift down by one |
| Seqs.InsertAt | packages/core/src/VirtualTable/useVirtualTable.ts:225 | `splice(i, 0, x)`: one element longer with `x` at `i`; the elements before stay, the ones from `i` shift up by one |
| Ownership.Value | packages/core/src/VirtualTable/useVirtualTable.ts:84-91 | readers see the controlled value when the host supplies one, and the internal value otherwise |
| Ownership.Apply | packages/core/src/VirtualTable/useVirtualTable.ts:95 | a plain value replaces the state; a function updater is applied to the current value |
| Ownership.Commit | packages/core/src/VirtualList/useVirtualList.ts:91-95 | a write goes to the callback alone when one exists, leaving the state untouched; otherwise it replaces the internal value and notifies no one |
| Ownership.HandleChange | packages/core/src/VirtualTable/useVirtualTable.ts:93-139 | each of the four handlers for selection, sorting, expansion and column sizing applies the updater to the value currently seen, then either passes the result to the callback and leaves state alone, or stores it internally. The column-order handler is `Columns.HandleColumnOrderChange` |
| Ownership.UncontrolledChangeObserved | packages/core/src/VirtualTable/useVirtualTable.ts:93-103 | uncontrolled and without a callback, the value seen after a change is the updater applied to the value seen before |
| Ownership.ControlledValueFixed | packages/core/src/VirtualTable/useVirtualTable.ts:84-91 | with a controlled value, no change alters what is observed |
| Ownership.EchoingHostMatchesUncontrolled | packages/core/src/VirtualTable/useVirtualTable.ts:93-103 | a host that feeds each notified value back in as the controlled value observes the same value an uncontrolled hook would |
| Focus.Clamp | packages/core/src/VirtualList/useVirtualList.ts:90 | the result is -1 or an existing index; requests already in `[-1, n-1]` pass through; requests below snap to -1 and requests above snap to n-1; an empty list always gives -1 |
| Focus.ClampExamples | packages/core/src/VirtualList/useVirtualList.test.tsx:94-125 | on three items, request 100 gives 2 and request -10 gives -1 |
| Focus.ClampIdempotentMonotone | packages/core/src/VirtualList/useVirtualList.ts:90 | clamping twice equals clamping once, and clamping preserves the order of requests |
| Focus.SetFocused | packages/core/src/VirtualList/useVirtualList.ts:88-102 | the clamped index goes to the callback (one `NotifyFocus`, first) if there is one, otherwise into internal state; then exactly one `ScrollTo(clamped, Auto)`, made exactly when the clamped index is >= 0; nothing else is emitted. `setFocusedRow` (useVirtualTable.ts:233-247) is the same code |
| Focus.ObservedAfterSetFocused | packages/core/src/VirtualList/useVirtualList.ts:28-31 | after a focus change the observed focus is: the controlled value when present; else the unchanged internal value when a callback took the write; else the clamped request |
| Focus.ParseNavKey | packages/core/src/VirtualList/useVirtualList.ts:111-127 | exactly the four key names `ArrowDown`, `ArrowUp`, `Home` and `End` are navigation keys |
| Focus.Requested | packages/core/src/VirtualList/useVirtualList.ts:112-127 | before clamping, ArrowDown asks for current+1, ArrowUp for current-1, Home for 0 and End for n-1 |
| Focus.Navigate | packages/core/src/VirtualList/useVirtualList.ts:109-127 | a handled navigation key emits one `preventDefault` first, followed by exactly the focus controller's effects for the index the key asks for, relative to the observed focus: the clamped target goes to the callback or into internal state, and `ScrollTo(target, Auto)` is the only scroll and happens exactly when the target is >= 0 |
| Focus.NavigationTargets | packages/core/src/VirtualList/useVirtualList.ts:112-127 | from any valid focus: ArrowDown moves one down but stops at the last item; ArrowUp moves one up but stops at -1; Home gives 0, or -1 when the list is empty; End gives n-1 |
| ScrollEdge.HandleScroll | packages/core/src/VirtualList/useVirtualList.ts:76-85 | `LoadMore` fires exactly when a callback and a container exist and `scrollHeight - scrollTop - clientHeight` is strictly below the threshold; otherwise nothing fires. The table's `handleScroll` (useVirtualTable.ts:204-213) is the same code |
| ScrollEdge.DistanceFromBottom | packages/core/src/VirtualList/useVirtualList.ts:80 | the distance is what remains of the content height below the viewport's lower edge (`scrollTop + clientHeight + distance == scrollHeight`) |
| ScrollEdge.LoadMoreMonotone | packages/core/src/VirtualList/useVirtualList.ts:80-84 | if the callback fires at some scroll position, it also fires at every position further down |
| ScrollEdge.ThresholdIsStrict | packages/core/src/VirtualList/useVirtualList.ts:82 | at a distance exactly equal to the threshold, nothing fires |
| ScrollEdge.ScrollExamples | packages/core/src/VirtualList/useVirtualList.test.tsx:312-384 | a distance of 50 under threshold 100 fires; a distance of 950 does not; without a callback nothing fires |
| Anchor.Observe | packages/core/src/VirtualList/useVirtualList.ts:50-73 | the new baseline is the new first id (none if the data is empty) and the new length. `scrollTop` moves only when all of these hold: a first id was remembered; it is no longer first; the data grew; it is found again; the container exists. The shift is then k·(height+gap), where k > 0 is the first position of the old first id |
| Anchor.IndexOfAfterPrefix | packages/core/src/VirtualList/useVirtualList.ts:59 | a linear search past a prefix that lacks the id finds it shifted by the prefix length |
| Anchor.PrependCompensates | packages/core/src/VirtualList/useVirtualList.ts:57-64 | prepending p items in front of the previous data, when none of them carries the old first id, shifts `scrollTop` by \|p\|·(height+gap) |
| Anchor.AppendDoesNotCompensate | packages/core/src/VirtualList/useVirtualList.ts:57-58 | appending to the previous data never shifts `scrollTop` |
| Anchor.ObserveIdempotent | packages/core/src/VirtualList/useVirtualList.ts:50-73 | re-running the effect on unchanged data shifts nothing and leaves the baseline as it is, even when the item height, gap or container changed in between |
| Anchor.FreshBaselineDoesNotCompensate | packages/core/src/VirtualList/useVirtualList.ts:34-35 | neither the first run after mount (refs as created: no first id, the mount-time length) nor the first run after the data was empty shifts `scrollTop` |
| Anchor.PrependExample | packages/core/src/VirtualList/useVirtualList.test.tsx:387-428 | `[a,b,c]` becoming `[x,y,a,b,c]`, with height 50 and gap 10, takes `scrollTop` from 100 to 220 |
| Columns.GetColumnId | packages/core/src/VirtualTable/useVirtualTable.ts:24-34 | the id is an explicit string `id` if present, else a string `accessorKey`, else the empty string |
| Columns.DefaultColumnOrder | packages/core/src/VirtualTable/useVirtualTable.ts:73 | the default order has one id per column definition, in order |
| Columns.EffectiveOrder | packages/core/src/VirtualTable/useVirtualTable.ts:88-90 | the controlled order wins when present, even if empty; otherwise a non-empty internal order; otherwise the default order |
| Columns.HandleColumnOrderChange | packages/core/src/VirtualTable/useVirtualTable.ts:141-151 | the updater sees the effective order, fallbacks included; the result then goes to the callback or into internal state |
| Columns.Reorder | packages/core/src/VirtualTable/useVirtualTable.ts:218-225 | there is no result exactly when either id is missing; otherwise the length is kept and the dragged id sits at the target's original index |
| Columns.ReorderPermutes | packages/core/src/VirtualTable/useVirtualTable.ts:218-225 | a successful reorder keeps the same multiset of ids |
| Columns.ReorderKeepsOthers | packages/core/src/VirtualTable/useVirtualTable.ts:218-225 | only the dragged id moves: removing it from its new place and from its old place leaves the same sequence, so the other ids keep their relative order |
| Columns.ReorderOntoItself | packages/core/src/VirtualTable/useVirtualTable.ts:218-225 | dropping a column onto itself leaves the order unchanged |
| Columns.ReorderTargetNeighbour | packages/core/src/VirtualTable/useVirtualTable.ts:218-225 | dragged forward, the dragged column lands just after the target; dragged backward, it lands just before the target |
| Columns.ReorderColumn | packages/core/src/VirtualTable/useVirtualTable.ts:216-230 | with an unknown id nothing changes and no callback fires; otherwise the moved order goes to the callback or into internal state |
| Columns.ReorderObserved | packages/core/src/VirtualTable/useVirtualTable.ts:216-230 | uncontrolled and without a callback, the effective order after a reorder is the moved order |
| Columns.ReorderFromDefaultOrder | packages/core/src/VirtualTable/useVirtualTable.ts:73-90 | with no controlled and no internal order the derived order is shown, and a successful reorder hands on a permutation of it, of the same length, with the dragged column at the target's place |
| Columns.ColumnIdExamples | packages/core/src/VirtualTable/useVirtualTable.test.tsx:31-52 | ids derived from `accessorKey` give `[id,name,age]`; an explicit id wins, giving `[customId,name]` |
| Columns.ReorderExamples | packages/core/src/VirtualTable/useVirtualTable.test.tsx:218-252 | dragging `age` onto `id` in `[id,name,age]` gives `[age,id,name]`; an unknown id gives no result, so the order is left unchanged |
| VirtualList.Mount | packages/core/src/VirtualList/useVirtualList.ts:28-35 | the host's controlled value and callback flag are kept as given, the internal focus starts at -1 so the observed focus is the controlled value or -1, and the anchoring refs start with no first id and the mount-time length |
| VirtualList.HandleKeyDown | packages/core/src/VirtualList/useVirtualList.ts:105-131 | when disabled, or for any other key, nothing changes and nothing is emitted. For a navigation key the effects are `preventDefault` followed by the focus controller's: the clamped target goes to the callback (state untouched) or into internal state, the controlled value and callback are kept, and `ScrollTo(target, Auto)` is the only scroll, made exactly when the target is >= 0 |
| VirtualList.ScrollToTopIsHomeAligned | packages/core/src/VirtualList/useVirtualList.ts:141-143 | `scrollToTop` targets the item Home focuses on a non-empty list, but with `start` alignment where Home's scroll uses `auto` |
| VirtualList.FocusScrollIsScrollToIndex | packages/core/src/VirtualList/useVirtualList.ts:134-139 | the scroll a focus change makes is exactly the request `scrollToIndex` makes for the clamped index (`auto` alignment) |
| VirtualList.ArrowDownWalk | packages/core/src/VirtualList/useVirtualList.ts:112-115 | with uncontrolled focus and no callback, n presses of ArrowDown from focus f land on f+n, stopping at the last item |
| VirtualList.EndIsStable | packages/core/src/VirtualList/useVirtualList.ts:112-115 | once on the last item, any number of ArrowDown presses stays there |
| VirtualList.DisabledIsInert | packages/core/src/VirtualList/useVirtualList.ts:107 | with keyboard navigation off, no key sequence changes the state |
| VirtualList.KeyboardExamples | packages/core/src/VirtualList/useVirtualList.test.tsx:158-268 | on three items: ArrowDown from -1 gives 0 and again 1; ArrowUp from 2 gives 1; Home from 2 gives 0; End gives 2; with navigation disabled ArrowDown leaves -1 |
| VirtualTable.EstimateSize | packages/core/src/VirtualTable/useVirtualTable.ts:184-191 | the base height when expansion is off or the index has no row; otherwise base plus expanded height exactly when that row is expanded |
| VirtualTable.EstimatedExtentFormula | packages/core/src/VirtualTable/useVirtualTable.ts:184-191 | the estimates of the first n rows add up to n base heights, plus one expanded height per expanded row when expansion is on |
| VirtualTable.EstimateExamples | packages/core/src/VirtualTable/useVirtualTable.ts:18-19 | the default heights are 40 and 200; an expanded row is estimated at 240 only when expansion is on; a missing row gets 40 |
| VirtualTable.SetFocusedRow | packages/core/src/VirtualTable/useVirtualTable.ts:233-247 | the clamped request `max(-1, min(r, rows-1))` goes to the callback (one notification, first; state untouched) or into internal state; then one `ScrollTo(clamped, Auto)`, made exactly when it is >= 0. So only an existing row or -1 is stored or reported, and only an existing row is scrolled to |
| VirtualTable.HandleKeyDown | packages/core/src/VirtualTable/useVirtualTable.ts:250-299 | disabled: nothing. Navigation keys behave as in the list. `preventDefault` happens exactly for a navigation key, for Enter with a focused row and expansion on, or for Space with a focused row and selection on, and always comes first. Enter toggles expansion exactly of the focused row, when it exists and can expand. Space toggles selection exactly of the focused row, when it exists. For any key other than a navigation key the focus state is unchanged and the only possible effects are `preventDefault` and the toggles |
| VirtualTable.DisabledIsInert | packages/core/src/VirtualTable/useVirtualTable.ts:252 | with keyboard navigation off, no key sequence changes the focus state |
| VirtualTable.EnterAndSpaceKeepFocus | packages/core/src/VirtualTable/useVirtualTable.ts:273-288 | for every option set, row list and focus, Enter and Space leave the focus state unchanged, notify nothing, scroll nothing, and toggle at most the focused row |
| VirtualTable.StateHandlerExamples | packages/core/src/VirtualTable/useVirtualTable.test.tsx:57-149 | uncontrolled selection and sorting record the update; a controlled selection stays the host's while the callback receives the merged selection |
| VirtualTable.NavigationExamples | packages/core/src/VirtualTable/useVirtualTable.test.tsx:256-322 | on three rows: ArrowDown, ArrowDown, ArrowUp from -1 end at 0; End then Home ends at 0 |
| VirtualTable.SpaceAndDisabledExamples | packages/core/src/VirtualTable/useVirtualTable.test.tsx:324-367 | Space on row 0 with selection on prevents the default and toggles selection of row 0; with navigation disabled ArrowDown does nothing |

## Left out

- The virtualizer's internals are not modelled, because that library is not part of this model. This covers the visible window and overscan, the measurement cache, `measureElement`, `getTotalSize`, and how `scrollToIndex` chooses a scroll position. Calls into it are `ScrollTo` effects. `overscan`, with its default of 5, is only passed through.
- The table library's internals are not modelled, for the same reason. This covers the row model, sorting, and the meaning of `toggleSelected` and `toggleExpanded`. The options `enableSorting`, `enableMultiSort`, `maxMultiSortColCount`, `enableColumnResizing` and `columnResizeMode` are left out too: the hook only forwards them. Rows arrive with their `canExpand` and `isExpanded` flags already computed. `Row.canExpand` already includes the hook's default for `getRowCanExpand`: with expansion on and no predicate supplied, every row can expand (useVirtualTable.ts:165), so by default Enter toggles any focused row.
- React scheduling (`useState`, `useRef`, `useCallback`, `useEffect`) is left out. State is an explicit record. The anchoring effect is a step applied to each new `data`. A re-run on unchanged data, caused by a change in another dependency (item height, gap, or the container appearing or going away), is covered by `Anchor.ObserveIdempotent`.
- The DOM is left out. The container ref becomes a flag or an `Option` of scroll metrics. The browser's own clamping of `scrollTop` after the anchoring `+=` is not modelled: the model reports the requested shift.
- `getItemId` is a host function. Items are given by their ids, computed with each item's own index, exactly as the hook calls it.
- The four table state handlers for selection, sorting, expansion and column sizing are one generic `Ownership.HandleChange`; the column-order handler is `Columns.HandleColumnOrderChange`. Row selection, sorting, expansion and column sizing are opaque type parameters, because only the table library interprets them.
- The `enableColumnReordering` gate (useVirtualTable.ts:171, 177) is not modelled. The hook passes the column order and its handler to the table library only when the flag is on, and what the library does with them is outside this model. `Columns.ReorderColumn` never reads the flag, as `reorderColumn` (useVirtualTable.ts:216-230) does not, so it behaves the same whatever the flag.
- Focus indices are integers. The requested index and a controlled `focusedIndex` are JavaScript numbers in the hooks, so a fractional value would pass through the clamp unchanged; the model does not cover fractional indices.
- Pixel values are integers: heights, gaps, scroll offsets and thresholds. Fractional pixels are not modelled.
- `VirtualList.tsx` and `VirtualTable.tsx` are left out. They render the hooks' output and wire DOM events to the hooks. Their handlers only guard calls into the hooks. A column drop calls `reorderColumn` only when a column is being dragged and its id differs from the drop target's id (`packages/core/src/VirtualTable/VirtualTable.tsx:99-107`; the drag state is kept at line 39). A row click calls `setFocusedRow` when keyboard navigation is on, and `toggleExpanded` when the row can expand (`VirtualTable.tsx:171-178`). Drag state and click wiring are not modelled.
- The stories, the demos and `types.ts` are left out. They hold examples and type declarations only.

=== FILE: anchor.dfy ===
/**
 * Prepend scroll anchoring: the effect `useVirtualList` runs after every change
 * of `data`. It remembers the first item's id and the item count, and when
 * items appear in front of the old first item it moves `scrollTop` down by
 * their estimated height so the content on screen stays put.
 *
 * Items are given by their ids, `ids[i] == getItemId(data[i], i)`.
 */
module Anchor {
  import opened Wrappers
  import opened Seqs

  /** `prevFirstItemIdRef` and `prevDataLengthRef`. */
  datatype Baseline = Baseline(prevFirstId: Option<string>, prevLength: nat)

  /** The refs as first created: no first id, and the length of the data at mount. */
  function InitialBaseline(ids: seq<string>): Baseline {
    Baseline(None, |ids|)
  }

  /** How far to move `scrollTop` (0 for "leave it"), and the refs afterwards. */
  datatype AnchorStep = AnchorStep(scrollDelta: int, baseline: Baseline)

  /**
   * The conditions under which the effect moves `scrollTop`: there was a first
   * id, it is no longer first, the data grew, the old first item is still
   * present, and the container is mounted.
   */
  predicate Compensates(b: Baseline, ids: seq<string>, hasContainer: bool) {
    && b.prevFirstId.Some?
    && |ids| > 0
    && ids[0] != b.prevFirstId.value
    && |ids| > b.prevLength
    && b.prevFirstId.value in ids
    && hasContainer
  }

  /** The effect body, run with the new `data`. */
  function Observe(b: Baseline, ids: seq<string>, itemHeight: int, gap: int, hasContainer: bool): (r: AnchorStep)
    ensures |ids| > 0 ==> r.baseline == Baseline(Some(ids[0]), |ids|)
    ensures |ids| == 0 ==> r.baseline == Baseline(None, 0)
    ensures !Compensates(b, ids, hasContainer) ==> r.scrollDelta == 0
    ensures Compensates(b, ids, hasContainer) ==>
              var k := IndexOf(ids, b.prevFirstId.value);
              && 0 < k
              && ids[k] == b.prevFirstId.value
              && (forall j :: 0 <= j < k ==> ids[j] != b.prevFirstId.value)
              && r.scrollDelta == k * (itemHeight + gap)
  {
    if |ids| > 0 then
      var currentFirstId := ids[0];
      var delta :=
        if b.prevFirstId.Some? && currentFirstId != b.prevFirstId.value && |ids| > b.prevLength then
          var oldFirstIndex := IndexOf(ids, b.prevFirstId.value);
          if oldFirstIndex > 0 && hasContainer then oldFirstIndex * (itemHeight + gap) else 0
        else 0;
      AnchorStep(delta, Baseline(Some(currentFirstId), |ids|))
    else
      AnchorStep(0, Baseline(None, 0))
  }

  /** Searching past a prefix that lacks `x` finds `x` shifted by the prefix length. */
  lemma {:induction false} IndexOfAfterPrefix(p: seq<string>, o: seq<string>, x: string)
    requires x !in p
    ensures IndexOf(p + o, x) == if x in o then |p| + IndexOf(o, x) else -1
  {
    if |p| == 0 {
      assert p + o == o;
    } else {
      assert (p + o)[1..] == p[1..] + o;
      assert x !in p[1..];
      IndexOfAfterPrefix(p[1..], o, x);
    }
  }

  /**
   * Prepending `p` to data `o` (none of `p` being `o`'s first item) moves
   * `scrollTop` by `|p|` estimated item heights plus gaps, whatever the
   * baseline before `o` was.
   */
  lemma PrependCompensates(b0: Baseline, o: seq<string>, p: seq<string>, itemHeight: int, gap: int)
    requires |o| > 0 && |p| > 0 && o[0] !in p
    ensures
      var b := Observe(b0, o, itemHeight, gap, true).baseline;
      Observe(b, p + o, itemHeight, gap, true).scrollDelta == |p| * (itemHeight + gap)
  {
    IndexOfAfterPrefix(p, o, o[0]);
    assert (p + o)[0] == p[0];
    assert (p + o)[|p|] == o[0];
  }

  /** Appending (the first item stays first) never moves `scrollTop`. */
  lemma AppendDoesNotCompensate(b0: Baseline, o: seq<string>, q: seq<string>, itemHeight: int, gap: int, hasContainer: bool)
    requires |o| > 0
    ensures
      var b := Observe(b0, o, itemHeight, gap, hasContainer).baseline;
      Observe(b, o + q, itemHeight, gap, hasContainer).scrollDelta == 0
  {
    assert (o + q)[0] == o[0];
  }

  /**
   * Re-running the effect on unchanged data changes nothing and moves nothing,
   * whatever item height, gap and container the re-run sees.
   */
  lemma ObserveIdempotent(b0: Baseline, ids: seq<string>, itemHeight: int, gap: int, hasContainer: bool,
                          itemHeight2: int, gap2: int, hasContainer2: bool)
    ensures
      var s := Observe(b0, ids, itemHeight, gap, hasContainer);
      Observe(s.baseline, ids, itemHeight2, gap2, hasContainer2) == AnchorStep(0, s.baseline)
  {
  }

  /** The first run after mount, and the first run after the data was empty, never move `scrollTop`. */
  lemma FreshBaselineDoesNotCompensate(b0: Baseline, ids: seq<string>, itemHeight: int, gap: int, hasContainer: bool)
    ensures Observe(InitialBaseline(ids), ids, itemHeight, gap, hasContainer).scrollDelta == 0
    ensures
      var emptied := Observe(b0, [], itemHeight, gap, hasContainer).baseline;
      Observe(emptied, ids, itemHeight, gap, hasContainer).scrollDelta == 0
  {
  }

  /** The hook tests' case: `[a,b,c]` becomes `[x,y,a,b,c]` with 50-pixel items and a 10-pixel gap. */
  lemma PrependExample()
    ensures
      var b := Observe(InitialBaseline(["a", "b", "c"]), ["a", "b", "c"], 50, 10, true).baseline;
      100 + Observe(b, ["x", "y", "a", "b", "c"], 50, 10, true).scrollDelta == 220
  {
    PrependCompensates(InitialBaseline(["a", "b", "c"]), ["a", "b", "c"], ["x", "y"], 50, 10);
    assert ["x", "y"] + ["a", "b", "c"] == ["x", "y", "a", "b", "c"];
  }
}

=== FILE: columns.dfy ===
/**
 * Column bookkeeping of `useVirtualTable`: column ids, the effective column
 * order, and `reorderColumn` for drag-and-drop.
 */
module Columns {
  import opened Wrappers
  import opened Seqs
  import opened Ownership

  /** A property value as far as `typeof x === 'string'` can tell. */
  datatype JsValue = JsString(s: string) | NotString

  /** The two `ColumnDef` properties a column id can come from; `None` is "property absent". */
  datatype ColumnDef = ColumnDef(id: Option<JsValue>, accessorKey: Option<JsValue>)

  /** `getColumnId`: an explicit string `id`, else a string `accessorKey`, else `""`. */
  function GetColumnId(c: ColumnDef): (r: string)
    ensures c.id.Some? && c.id.value.JsString? ==> r == c.id.value.s
    ensures !(c.id.Some? && c.id.value.JsString?) && c.accessorKey.Some? && c.accessorKey.value.JsString? ==>
              r == c.accessorKey.value.s
    ensures !(c.id.Some? && c.id.value.JsString?) && !(c.accessorKey.Some? && c.accessorKey.value.JsString?) ==>
              r == ""
  {
    match (c.id, c.accessorKey)
    case (Some(JsString(s)), _) => s
    case (_, Some(JsString(s))) => s
    case _ => ""
  }

  /** `columns.map(getColumnId)` */
  function DefaultColumnOrder(columns: seq<ColumnDef>): (order: seq<string>)
    ensures |order| == |columns|
    ensures forall i :: 0 <= i < |columns| ==> order[i] == GetColumnId(columns[i])
  {
    seq(|columns|, i requires 0 <= i < |columns| => GetColumnId(columns[i]))
  }

  /** `controlled ?? (internal.length ? internal : default)` */
  function EffectiveOrder(o: Owned<seq<string>>, defaults: seq<string>): (order: seq<string>)
    ensures o.controlled.Some? ==> order == o.controlled.value
    ensures o.controlled.None? && |o.internal| > 0 ==> order == o.internal
    ensures o.controlled.None? && |o.internal| == 0 ==> order == defaults
  {
    Value(o.(internal := if |o.internal| > 0 then o.internal else defaults))
  }

  /** `handleColumnOrderChange`: the updater sees the effective order, fallbacks included. */
  function HandleColumnOrderChange(o: Owned<seq<string>>, defaults: seq<string>, u: Updater<seq<string>>): (r: Committed<seq<string>>)
    ensures r.owned.controlled == o.controlled && r.owned.hasCallback == o.hasCallback
    ensures o.hasCallback ==> r.owned == o && r.notified == Some(Apply(u, EffectiveOrder(o, defaults)))
    ensures !o.hasCallback ==> r.notified == None && r.owned.internal == Apply(u, EffectiveOrder(o, defaults))
  {
    Commit(o, Apply(u, EffectiveOrder(o, defaults)))
  }

  /**
   * The order `reorderColumn(dragged, target)` computes: take `dragged` out and
   * put it back at the index `target` had before. `None` when either id is
   * missing.
   */
  function Reorder(order: seq<string>, dragged: string, target: string): (r: Option<seq<string>>)
    ensures r.None? <==> dragged !in order || target !in order
    ensures r.Some? ==> |r.value| == |order|
    ensures r.Some? ==> r.value[IndexOf(order, target)] == dragged
  {
    var draggedIndex := IndexOf(order, dragged);
    var targetIndex := IndexOf(order, target);
    if draggedIndex == -1 || targetIndex == -1 then None
    else Some(InsertAt(RemoveAt(order, draggedIndex), targetIndex, dragged))
  }

  /** A successful reorder is a permutation of the order. */
  lemma ReorderPermutes(order: seq<string>, dragged: string, target: string)
    requires dragged in order && target in order
    ensures multiset(Reorder(order, dragged, target).value) == multiset(order)
  {
    var i := IndexOf(order, dragged);
    RemoveAtMultiset(order, i);
    InsertAtMultiset(RemoveAt(order, i), IndexOf(order, target), dragged);
  }

  /**
   * Only `dragged` moves: taking it out of its new place and out of its old
   * place leaves the same sequence, so every other id keeps its relative order.
   */
  lemma ReorderKeepsOthers(order: seq<string>, dragged: string, target: string)
    requires dragged in order && target in order
    ensures RemoveAt(Reorder(order, dragged, target).value, IndexOf(order, target)) == RemoveAt(order, IndexOf(order, dragged))
  {
    RemoveInserted(RemoveAt(order, IndexOf(order, dragged)), IndexOf(order, target), dragged);
  }

  /**
   * Where the target column ends up: dragged forward, the dragged column lands
   * just after the target; dragged backward, just before it.
   */
  lemma ReorderTargetNeighbour(order: seq<string>, dragged: string, target: string)
    requires dragged in order && target in order
    ensures var i, j := IndexOf(order, dragged), IndexOf(order, target);
            && (i < j ==> Reorder(order, dragged, target).value[j - 1] == target)
            && (j < i ==> Reorder(order, dragged, target).value[j + 1] == target)
  {
    var i, j := IndexOf(order, dragged), IndexOf(order, target);
    var removed := RemoveAt(order, i);
    if i < j {
      assert removed[j - 1] == order[j];
    } else if j < i {
      assert removed[j] == order[j];
    }
  }

  /** Dropping a column on itself changes nothing. */
  lemma ReorderOntoItself(order: seq<string>, id: string)
    requires id in order
    ensures Reorder(order, id, id) == Some(order)
  {
    InsertRemoved(order, IndexOf(order, id));
  }

  /**
   * `reorderColumn`: with both ids present, the new order goes through
   * `handleColumnOrderChange`; otherwise nothing changes and no callback fires.
   */
  function ReorderColumn(o: Owned<seq<string>>, defaults: seq<string>, dragged: string, target: string): (r: Committed<seq<string>>)
    ensures var order := EffectiveOrder(o, defaults);
            dragged !in order || target !in order ==> r == Committed(o, None)
    ensures var order := EffectiveOrder(o, defaults);
            dragged in order && target in order ==>
              var moved := Reorder(order, dragged, target).value;
              && (o.hasCallback ==> r == Committed(o, Some(moved)))
              && (!o.hasCallback ==> r == Committed(o.(internal := moved), None))
  {
    match Reorder(EffectiveOrder(o, defaults), dragged, target)
    case None => Committed(o, None)
    case Some(moved) => HandleColumnOrderChange(o, defaults, Replace(moved))
  }

  /** An uncontrolled table without a callback shows the moved order right after the reorder. */
  lemma ReorderObserved(o: Owned<seq<string>>, defaults: seq<string>, dragged: string, target: string)
    requires o.controlled.None? && !o.hasCallback
    requires dragged in EffectiveOrder(o, defaults) && target in EffectiveOrder(o, defaults)
    ensures EffectiveOrder(ReorderColumn(o, defaults, dragged, target).owned, defaults)
            == Reorder(EffectiveOrder(o, defaults), dragged, target).value
  {
  }

  /**
   * A table that was never reordered shows the order derived from its column
   * definitions, and a successful reorder there hands on (to the callback or
   * to internal state) a permutation of that derived order with the dragged
   * column at the target's place.
   */
  lemma ReorderFromDefaultOrder(o: Owned<seq<string>>, columns: seq<ColumnDef>, dragged: string, target: string)
    requires o.controlled.None? && |o.internal| == 0
    requires dragged in DefaultColumnOrder(columns) && target in DefaultColumnOrder(columns)
    ensures EffectiveOrder(o, DefaultColumnOrder(columns)) == DefaultColumnOrder(columns)
    ensures
      var defaults := DefaultColumnOrder(columns);
      var r := ReorderColumn(o, defaults, dragged, target);
      var stored := if o.hasCallback then r.notified.value else r.owned.internal;
      && (o.hasCallback ==> r.notified.Some?)
      && multiset(stored) == multiset(defaults)
      && stored[IndexOf(defaults, target)] == dragged
      && |stored| == |columns|
  {
    ReorderPermutes(DefaultColumnOrder(columns), dragged, target);
  }

  /** The hook tests' column-id cases: ids from `accessorKey`, and an explicit id winning. */
  lemma ColumnIdExamples()
    ensures DefaultColumnOrder([ColumnDef(None, Some(JsString("id"))), ColumnDef(None, Some(JsString("name"))),
                                ColumnDef(None, Some(JsString("age")))]) == ["id", "name", "age"]
    ensures DefaultColumnOrder([ColumnDef(Some(JsString("customId")), Some(JsString("id"))),
                                ColumnDef(None, Some(JsString("name")))]) == ["customId", "name"]
  {
  }

  /** The hook tests' reorder cases: dragging `age` onto `id`, and an unknown id. */
  lemma ReorderExamples()
    ensures Reorder(["id", "name", "age"], "age", "id") == Some(["age", "id", "name"])
    ensures Reorder(["id", "name", "age"], "missing", "id") == None
  {
    assert IndexOf(["id", "name", "age"], "age") == 2 by {
      assert ["id", "name", "age"][1..] == ["name", "age"];
      assert ["name", "age"][1..] == ["age"];
    }
    assert IndexOf(["id", "name", "age"], "id") == 0;
    assert RemoveAt(["id", "name", "age"], 2) == ["id", "name"];
    assert InsertAt(["id", "name"], 0, "age") == ["age", "id", "name"];
  }
}

=== FILE: effects.dfy ===
/**
 * The calls the focus controller, the keyboard handlers and the scroll-edge
 * handler make of the world outside the hook: scrolling the virtualizer,
 * toggling a row's selection or expansion, notifying the host, and stopping the
 * browser's default action. Each step lists them in the order the hook makes
 * them. A state handler's callback is instead the `notified` field of
 * `Ownership.Committed`, and the anchoring scroll is `Anchor.AnchorStep.scrollDelta`.
 */
module Effects {

  /** Alignment hint passed to the virtualizer's `scrollToIndex`. */
  datatype Align = Auto | Start

  datatype Effect =
    | PreventDefault                        // `e.preventDefault()` on the key event
    | NotifyFocus(index: int)               // the host's focus-change callback
    | ScrollTo(index: int, align: Align)    // `virtualizer.scrollToIndex(index, { align })`
    | ToggleExpand(row: int)                // `rows[row].toggleExpanded()`
    | ToggleSelect(row: int)                // `rows[row].toggleSelected()`
    | LoadMore                              // the host's `onScrollToBottom()`
}

=== FILE: focus.dfy ===
/**
 * The focus controller shared by `setFocusedItem` (list) and `setFocusedRow`
 * (table), and the arrow/Home/End part of their keyboard handlers. Both hooks
 * run the same code with `count` the number of items or rows.
 */
module Focus {
  import opened Wrappers
  import opened Effects
  import opened Ownership

  /** "No item is focused." */
  const NoFocus: int := -1

  /** `Math.max(-1, Math.min(requested, count - 1))` */
  function Clamp(requested: int, count: nat): (c: int)
    ensures c == NoFocus || 0 <= c < count
    ensures count == 0 ==> c == NoFocus
    ensures -1 <= requested < count ==> c == requested
    ensures requested < -1 ==> c == NoFocus
    ensures requested >= count ==> c == count - 1
  {
    var low := if requested < count - 1 then requested else count - 1;
    if low < -1 then -1 else low
  }

  /** The new focus state and the calls made, in order. */
  datatype FocusStep = FocusStep(focus: Owned<int>, effects: seq<Effect>)

  /**
   * `setFocusedItem(requested)` / `setFocusedRow(requested)`: clamp, hand the
   * clamped index to the callback or store it, then scroll it into view unless
   * it is "no focus".
   */
  function SetFocused(focus: Owned<int>, count: nat, requested: int): (r: FocusStep)
    ensures r.focus.controlled == focus.controlled && r.focus.hasCallback == focus.hasCallback
    ensures focus.hasCallback ==> r.focus.internal == focus.internal
    ensures !focus.hasCallback ==> r.focus.internal == Clamp(requested, count)
    ensures forall i :: NotifyFocus(i) in r.effects <==> focus.hasCallback && i == Clamp(requested, count)
    ensures forall i, a :: ScrollTo(i, a) in r.effects <==> 0 <= Clamp(requested, count) && i == Clamp(requested, count) && a == Auto
    ensures |r.effects| == (if focus.hasCallback then 1 else 0) + (if 0 <= Clamp(requested, count) then 1 else 0)
    ensures focus.hasCallback ==> r.effects[0] == NotifyFocus(Clamp(requested, count))
    ensures 0 <= Clamp(requested, count) ==> r.effects[|r.effects| - 1] == ScrollTo(Clamp(requested, count), Auto)
    ensures PreventDefault !in r.effects && LoadMore !in r.effects
    ensures forall i :: ToggleExpand(i) !in r.effects && ToggleSelect(i) !in r.effects
  {
    var c := Clamp(requested, count);
    var committed := Commit(focus, c);
    var notify := if committed.notified.Some? then [NotifyFocus(committed.notified.value)] else [];
    var scroll := if c >= 0 then [ScrollTo(c, Auto)] else [];
    assert scroll != [] ==> (notify + scroll)[|notify|] == ScrollTo(c, Auto);
    FocusStep(committed.owned, notify + scroll)
  }

  /** Focus navigation keys. */
  datatype NavKey = ArrowDown | ArrowUp | Home | End

  /** The navigation key `key` names, if any (`e.key` values are case-sensitive). */
  function ParseNavKey(key: string): (k: Option<NavKey>)
    ensures k == Some(ArrowDown) <==> key == "ArrowDown"
    ensures k == Some(ArrowUp) <==> key == "ArrowUp"
    ensures k == Some(Home) <==> key == "Home"
    ensures k == Some(End) <==> key == "End"
  {
    if key == "ArrowDown" then Some(ArrowDown)
    else if key == "ArrowUp" then Some(ArrowUp)
    else if key == "Home" then Some(Home)
    else if key == "End" then Some(End)
    else None
  }

  /** The index a navigation key asks the focus controller for, before clamping. */
  function Requested(k: NavKey, current: int, count: nat): (r: int)
    ensures k == ArrowDown ==> r == current + 1
    ensures k == ArrowUp ==> r == current - 1
    ensures k == Home ==> r == 0
    ensures k == End ==> r == count - 1
  {
    match k
    case ArrowDown => current + 1
    case ArrowUp => current - 1
    case Home => 0
    case End => count - 1
  }

  /**
   * A handled navigation key: `e.preventDefault()` first, then the focus
   * controller on the index the key asks for, relative to the focus currently
   * observed (`controlled ?? internal`).
   */
  function Navigate(focus: Owned<int>, count: nat, k: NavKey): (r: FocusStep)
    ensures |r.effects| >= 1 && r.effects[0] == PreventDefault
    ensures r.focus.controlled == focus.controlled && r.focus.hasCallback == focus.hasCallback
    ensures !focus.hasCallback ==> r.focus.internal == Clamp(Requested(k, Value(focus), count), count)
    ensures focus.hasCallback ==> r.focus.internal == focus.internal
    ensures forall i :: NotifyFocus(i) in r.effects <==> focus.hasCallback && i == Clamp(Requested(k, Value(focus), count), count)
    ensures forall i, a :: ScrollTo(i, a) in r.effects <==>
              var target := Clamp(Requested(k, Value(focus), count), count);
              0 <= target && i == target && a == Auto
    ensures forall e :: e in r.effects ==> e == PreventDefault || e.NotifyFocus? || e.ScrollTo?
    ensures r.effects[1..] == SetFocused(focus, count, Requested(k, Value(focus), count)).effects
    ensures |r.effects| == 1 + (if focus.hasCallback then 1 else 0) + (if 0 <= Clamp(Requested(k, Value(focus), count), count) then 1 else 0)
  {
    var step := SetFocused(focus, count, Requested(k, Value(focus), count));
    assert ([PreventDefault] + step.effects)[1..] == step.effects;
    FocusStep(step.focus, [PreventDefault] + step.effects)
  }

  /** Where a navigation key leaves focus once clamped. */
  lemma NavigationTargets(current: int, count: nat)
    requires NoFocus <= current < count
    ensures Clamp(Requested(ArrowDown, current, count), count) == if current + 1 < count then current + 1 else count - 1
    ensures Clamp(Requested(ArrowUp, current, count), count) == if current == NoFocus then NoFocus else current - 1
    ensures Clamp(Requested(Home, current, count), count) == if count == 0 then NoFocus else 0
    ensures Clamp(Requested(End, current, count), count) == count - 1
  {
  }

  /** The hook tests' clamping cases: three items, requests 100 and -10. */
  lemma ClampExamples()
    ensures Clamp(100, 3) == 2 && Clamp(-10, 3) == NoFocus
  {
  }

  /** Clamping twice is clamping once, and clamping keeps the order of requests. */
  lemma ClampIdempotentMonotone(a: int, b: int, count: nat)
    ensures Clamp(Clamp(a, count), count) == Clamp(a, count)
    ensures a <= b ==> Clamp(a, count) <= Clamp(b, count)
  {
  }

  /**
   * The index observed after `setFocused`: the host's controlled value if
   * there is one; otherwise the unchanged internal value when a callback took
   * the write; otherwise the clamped request.
   */
  lemma ObservedAfterSetFocused(focus: Owned<int>, count: nat, requested: int)
    ensures focus.controlled.Some? ==> Value(SetFocused(focus, count, requested).focus) == focus.controlled.value
    ensures focus.controlled.None? && focus.hasCallback ==> Value(SetFocused(focus, count, requested).focus) == focus.internal
    ensures focus.controlled.None? && !focus.hasCallback ==> Value(SetFocused(focus, count, requested).focus) == Clamp(requested, count)
  {
  }
}

=== FILE: ownership.dfy ===
/**
 * The controlled/uncontrolled pattern that both hooks repeat for every piece of
 * state: focus, row selection, sorting, expansion, column sizing and column
 * order. The host may supply the value (controlled) and may supply a change
 * callback; the hook always keeps an internal value as well.
 */
module Ownership {
  import opened Wrappers

  /** One piece of dual-owned state. `hasCallback` is whether the host passed an `onXChange`. */
  datatype Owned<T> = Owned(controlled: Option<T>, internal: T, hasCallback: bool)

  /** A TanStack `Updater`: either a new value or a function of the current value. */
  datatype Updater<!T> = Replace(value: T) | Update(f: T -> T)

  /** `typeof updater === 'function' ? updater(current) : updater` */
  function Apply<T>(u: Updater<T>, current: T): (v: T)
    ensures u.Replace? ==> v == u.value
    ensures u.Update? ==> v == u.f(current)
  {
    match u
    case Replace(v) => v
    case Update(f) => f(current)
  }

  /** The value every reader sees: `controlled ?? internal`. */
  function Value<T>(o: Owned<T>): (v: T)
    ensures o.controlled.Some? ==> v == o.controlled.value
    ensures o.controlled.None? ==> v == o.internal
  {
    o.controlled.GetOr(o.internal)
  }

  /** The result of a write: the new state and the value handed to the host's callback, if any. */
  datatype Committed<T> = Committed(owned: Owned<T>, notified: Option<T>)

  /**
   * Writing `v`: the callback alone is called when there is one, otherwise the
   * internal value is replaced. The controlled value and the presence of the
   * callback are the host's, so they never change here.
   */
  function Commit<T>(o: Owned<T>, v: T): (r: Committed<T>)
    ensures r.owned.controlled == o.controlled && r.owned.hasCallback == o.hasCallback
    ensures r.notified.Some? <==> o.hasCallback
    ensures r.notified.Some? ==> r.notified.value == v && r.owned == o
    ensures r.notified.None? ==> r.owned.internal == v
  {
    if o.hasCallback then Committed(o, Some(v))
    else Committed(o.(internal := v), None)
  }

  /**
   * `handleXChange(updater)`: apply the updater to the value currently seen and
   * commit the outcome.
   */
  function HandleChange<T>(o: Owned<T>, u: Updater<T>): (r: Committed<T>)
    ensures r.owned.controlled == o.controlled && r.owned.hasCallback == o.hasCallback
    ensures o.hasCallback ==> r.owned == o && r.notified == Some(Apply(u, Value(o)))
    ensures !o.hasCallback ==> r.notified == None && r.owned.internal == Apply(u, Value(o))
  {
    Commit(o, Apply(u, Value(o)))
  }

  /** Uncontrolled and without a callback, a change is observed exactly as the updater computed it. */
  lemma UncontrolledChangeObserved<T>(o: Owned<T>, u: Updater<T>)
    requires o.controlled.None? && !o.hasCallback
    ensures Value(HandleChange(o, u).owned) == Apply(u, Value(o))
  {
  }

  /** Controlled, the observed value stays the host's, whatever the update. */
  lemma ControlledValueFixed<T>(o: Owned<T>, u: Updater<T>)
    requires o.controlled.Some?
    ensures Value(HandleChange(o, u).owned) == o.controlled.value
  {
  }

  /**
   * A host that feeds every notified value back in as the controlled value
   * observes the same value an uncontrolled hook without a callback would hold.
   */
  lemma EchoingHostMatchesUncontrolled<T>(o: Owned<T>, u: Updater<T>)
    requires o.hasCallback
    ensures
      var r := HandleChange(o, u);
      var echoed := r.owned.(controlled := r.notified);
      var plain := HandleChange(o.(controlled := None, internal := Value(o), hasCallback := false), u);
      Value(echoed) == Value(plain.owned)
  {
  }
}

=== FILE: scroll_edge.dfy ===
/** `handleScroll`: the "near the bottom" test behind infinite scrolling. */
module ScrollEdge {
  import opened Wrappers
  import opened Effects

  /** Default `scrollBottomThreshold`, in pixels, of both hooks. */
  const DefaultScrollThreshold: int := 100

  /** The scroll container's `scrollTop`, `scrollHeight` and `clientHeight`. */
  datatype ScrollMetrics = ScrollMetrics(scrollTop: int, scrollHeight: int, clientHeight: int)

  /** How far, in pixels, the viewport's lower edge is from the end of the content. */
  function DistanceFromBottom(m: ScrollMetrics): (d: int)
    ensures m.scrollTop + m.clientHeight + d == m.scrollHeight
  {
    m.scrollHeight - m.scrollTop - m.clientHeight
  }

  /**
   * `handleScroll()`: nothing without an `onScrollToBottom` callback or a
   * mounted container; otherwise the callback fires when the distance from
   * the bottom is strictly below the threshold.
   */
  function HandleScroll(hasCallback: bool, container: Option<ScrollMetrics>, threshold: int): (effs: seq<Effect>)
    ensures effs == [] || effs == [LoadMore]
    ensures LoadMore in effs <==>
              hasCallback && container.Some? &&
              container.value.scrollTop + container.value.clientHeight > container.value.scrollHeight - threshold
  {
    if !hasCallback || container.None? then []
    else if DistanceFromBottom(container.value) < threshold then [LoadMore]
    else []
  }

  /** Scrolling further down never stops the callback from firing. */
  lemma LoadMoreMonotone(m: ScrollMetrics, scrollTop': int, threshold: int)
    requires m.scrollTop <= scrollTop'
    requires LoadMore in HandleScroll(true, Some(m), threshold)
    ensures LoadMore in HandleScroll(true, Some(m.(scrollTop := scrollTop')), threshold)
  {
  }

  /** At exactly the threshold the test is false: the comparison is strict. */
  lemma ThresholdIsStrict(m: ScrollMetrics, threshold: int)
    requires DistanceFromBottom(m) == threshold
    ensures HandleScroll(true, Some(m), threshold) == []
  {
  }

  /** The hook tests' cases: 1000-high content, 50-high viewport, threshold 100. */
  lemma ScrollExamples()
    ensures HandleScroll(true, Some(ScrollMetrics(900, 1000, 50)), DefaultScrollThreshold) == [LoadMore]
    ensures HandleScroll(true, Some(ScrollMetrics(0, 1000, 50)), DefaultScrollThreshold) == []
    ensures HandleScroll(false, Some(ScrollMetrics(900, 1000, 50)), DefaultScrollThreshold) == []
  {
  }
}

=== FILE: seqs.dfy ===
/** Sequence helpers shared by the anchoring effect and column reordering. */
module Seqs {

  /**
   * The position of the first `x` in `s`, or -1: JavaScript's `indexOf`, and
   * `findIndex` with an equality test, both of which scan from the front.
   */
  function IndexOf<T(==)>(s: seq<T>, x: T): (r: int)
    ensures -1 <= r < |s|
    ensures r == -1 <==> x !in s
    ensures 0 <= r ==> s[r] == x
    ensures forall j :: 0 <= j < r ==> s[j] != x
  {
    if |s| == 0 then -1
    else if s[0] == x then 0
    else
      var k := IndexOf(s[1..], x);
      if k == -1 then -1 else k + 1
  }

  /** `s` without its element at `i`: `splice(i, 1)`. */
  function RemoveAt<T>(s: seq<T>, i: nat): (r: seq<T>)
    requires i < |s|
    ensures |r| == |s| - 1
    ensures forall j :: 0 <= j < i ==> r[j] == s[j]
    ensures forall j :: i <= j < |r| ==> r[j] == s[j + 1]
  {
    s[..i] + s[i + 1..]
  }

  /** `s` with `x` inserted so that it lands at index `i`: `splice(i, 0, x)`. */
  function InsertAt<T>(s: seq<T>, i: nat, x: T): (r: seq<T>)
    requires i <= |s|
    ensures |r| == |s| + 1
    ensures r[i] == x
    ensures forall j :: 0 <= j < i ==> r[j] == s[j]
    ensures forall j :: i < j < |r| ==> r[j] == s[j - 1]
  {
    s[..i] + [x] + s[i..]
  }

  /** Removing an element and putting it back where it was changes nothing. */
  lemma InsertRemoved<T>(s: seq<T>, i: nat)
    requires i < |s|
    ensures InsertAt(RemoveAt(s, i), i, s[i]) == s
  {
    var r := InsertAt(RemoveAt(s, i), i, s[i]);
    assert forall j :: 0 <= j < |s| ==> r[j] == s[j];
  }

  /** Inserting and then removing at the same index changes nothing. */
  lemma RemoveInserted<T>(s: seq<T>, i: nat, x: T)
    requires i <= |s|
    ensures RemoveAt(InsertAt(s, i, x), i) == s
  {
  }

  /** Removing an element takes exactly one copy of it out of the multiset. */
  lemma RemoveAtMultiset<T>(s: seq<T>, i: nat)
    requires i < |s|
    ensures multiset(RemoveAt(s, i)) + multiset{s[i]} == multiset(s)
  {
    assert s == s[..i] + [s[i]] + s[i + 1..];
  }

  /** Inserting an element adds exactly one copy of it to the multiset. */
  lemma InsertAtMultiset<T>(s: seq<T>, i: nat, x: T)
    requires i <= |s|
    ensures multiset(InsertAt(s, i, x)) == multiset(s) + multiset{x}
  {
    assert s == s[..i] + s[i..];
  }
}

=== FILE: virtual_list.dfy ===
/**
 * `useVirtualList`: the list hook's own decisions on top of the virtualizer —
 * focus state, keyboard navigation and the scroll requests it makes. Prepend
 * anchoring is in `Anchor`, the bottom-edge test in `ScrollEdge`.
 */
module VirtualList {
  import opened Wrappers
  import opened Effects
  import opened Ownership
  import opened Focus
  import opened Anchor

  const DefaultEstimatedItemHeight: int := 100

  /** The options the model reads; `gap` defaults to 0, keyboard navigation to off. */
  datatype ListOptions = ListOptions(
    estimatedItemHeight: int,
    gap: int,
    enableKeyboardNavigation: bool)

  const DefaultListOptions: ListOptions := ListOptions(DefaultEstimatedItemHeight, 0, false)

  /** The hook's state across renders: the focus and the anchoring refs. */
  datatype ListState = ListState(focus: Owned<int>, baseline: Baseline)

  /** The state at mount: internal focus -1, no remembered first id. */
  function Mount(ids: seq<string>, focusedIndex: Option<int>, hasFocusCallback: bool): (s: ListState)
    ensures s.focus.controlled == focusedIndex && s.focus.hasCallback == hasFocusCallback
    ensures s.focus.internal == NoFocus
    ensures Value(s.focus) == focusedIndex.GetOr(NoFocus)
    ensures s.baseline.prevFirstId.None? && s.baseline.prevLength == |ids|
  {
    ListState(Owned(focusedIndex, NoFocus, hasFocusCallback), InitialBaseline(ids))
  }

  /** A state change and the calls made along the way, in order. */
  datatype ListStep = ListStep(state: ListState, effects: seq<Effect>)

  /**
   * `handleKeyDown(e)` on a list of `count` items: nothing unless keyboard
   * navigation is on and the key is ArrowDown, ArrowUp, Home or End.
   */
  function HandleKeyDown(opts: ListOptions, s: ListState, count: nat, key: string): (r: ListStep)
    ensures !opts.enableKeyboardNavigation || ParseNavKey(key).None? ==> r == ListStep(s, [])
    ensures r.state.baseline == s.baseline
    ensures PreventDefault in r.effects <==> opts.enableKeyboardNavigation && ParseNavKey(key).Some?
    ensures opts.enableKeyboardNavigation && ParseNavKey(key).Some? ==>
              var target := Clamp(Requested(ParseNavKey(key).value, Value(s.focus), count), count);
              && r.effects[0] == PreventDefault
              && r.effects == [PreventDefault] + SetFocused(s.focus, count, Requested(ParseNavKey(key).value, Value(s.focus), count)).effects
              && (forall i, a :: ScrollTo(i, a) in r.effects <==> 0 <= target && i == target && a == Auto)
              && (forall i :: NotifyFocus(i) in r.effects <==> s.focus.hasCallback && i == target)
              && r.state.focus.controlled == s.focus.controlled
              && r.state.focus.hasCallback == s.focus.hasCallback
              && (s.focus.hasCallback ==> r.state.focus == s.focus)
              && (!s.focus.hasCallback ==> r.state.focus.internal == target)
  {
    if !opts.enableKeyboardNavigation then ListStep(s, [])
    else
      match ParseNavKey(key)
      case None => ListStep(s, [])
      case Some(k) =>
        var step := Navigate(s.focus, count, k);
        ListStep(s.(focus := step.focus), step.effects)
  }

  /** `scrollToIndex(index)`: passed through unclamped with alignment `auto`. */
  function ScrollToIndex(index: int): seq<Effect> {
    [ScrollTo(index, Auto)]
  }

  /** `scrollToTop()`: the first item, aligned to the start. */
  function ScrollToTop(): seq<Effect> {
    [ScrollTo(0, Start)]
  }

  /**
   * `scrollToTop` scrolls to the item the Home key focuses on a non-empty
   * list, but aligns it to the start where Home's scroll uses `auto`.
   */
  lemma ScrollToTopIsHomeAligned(opts: ListOptions, s: ListState, count: nat)
    requires opts.enableKeyboardNavigation && count > 0
    ensures
      var home := HandleKeyDown(opts, s, count, "Home").effects;
      && ScrollToTop()[0].index == Clamp(Requested(Home, Value(s.focus), count), count)
      && ScrollTo(ScrollToTop()[0].index, Auto) in home
      && ScrollToTop()[0] !in home
  {
  }

  /** The state after pressing `keys` in order, starting from `s`. */
  function PressKeys(opts: ListOptions, s: ListState, count: nat, keys: seq<string>): ListState
    decreases |keys|
  {
    if |keys| == 0 then s
    else PressKeys(opts, HandleKeyDown(opts, s, count, keys[0]).state, count, keys[1..])
  }

  /** `n` copies of `key`. */
  function Repeat(key: string, n: nat): (keys: seq<string>)
    ensures |keys| == n && forall i :: 0 <= i < n ==> keys[i] == key
  {
    if n == 0 then [] else [key] + Repeat(key, n - 1)
  }

  /** One ArrowDown press on a list that owns its focus and has no callback. */
  lemma ArrowDownStep(opts: ListOptions, s: ListState, count: nat)
    requires opts.enableKeyboardNavigation
    requires s.focus.controlled.None? && !s.focus.hasCallback
    ensures HandleKeyDown(opts, s, count, "ArrowDown").state == s.(focus := s.focus.(internal := Clamp(s.focus.internal + 1, count)))
  {
    assert ParseNavKey("ArrowDown") == Some(ArrowDown);
  }

  /** Pressing `n` ArrowDowns is one press followed by `n - 1` more. */
  lemma PressArrowDowns(opts: ListOptions, s: ListState, count: nat, n: nat)
    requires opts.enableKeyboardNavigation && n > 0
    requires s.focus.controlled.None? && !s.focus.hasCallback
    ensures PressKeys(opts, s, count, Repeat("ArrowDown", n))
            == PressKeys(opts, s.(focus := s.focus.(internal := Clamp(s.focus.internal + 1, count))), count, Repeat("ArrowDown", n - 1))
  {
    var keys := Repeat("ArrowDown", n);
    assert keys[1..] == Repeat("ArrowDown", n - 1);
    ArrowDownStep(opts, s, count);
  }

  /**
   * A focused list that owns its focus and has no callback: the focus after
   * `n` presses of ArrowDown from `start` is `start + n`, stopping at the last
   * item.
   */
  lemma {:induction false} ArrowDownWalk(opts: ListOptions, s: ListState, count: nat, n: nat)
    requires opts.enableKeyboardNavigation
    requires s.focus.controlled.None? && !s.focus.hasCallback
    requires NoFocus <= s.focus.internal < count
    decreases n
    ensures
      var walked := s.focus.internal + n;
      Value(PressKeys(opts, s, count, Repeat("ArrowDown", n)).focus) == if walked < count then walked else count - 1
  {
    if n > 0 {
      var next := s.(focus := s.focus.(internal := Clamp(s.focus.internal + 1, count)));
      PressArrowDowns(opts, s, count, n);
      if s.focus.internal + 1 >= count {
        EndIsStable(opts, next, count, n - 1);
      } else {
        ArrowDownWalk(opts, next, count, n - 1);
      }
    }
  }

  /** Once focus is on the last item (or the list is empty), ArrowDown keeps it there. */
  lemma {:induction false} EndIsStable(opts: ListOptions, s: ListState, count: nat, n: nat)
    requires opts.enableKeyboardNavigation
    requires s.focus.controlled.None? && !s.focus.hasCallback
    requires s.focus.internal == count - 1 && count - 1 >= NoFocus
    decreases n
    ensures Value(PressKeys(opts, s, count, Repeat("ArrowDown", n)).focus) == count - 1
  {
    if n > 0 {
      PressArrowDowns(opts, s, count, n);
      EndIsStable(opts, s.(focus := s.focus.(internal := Clamp(s.focus.internal + 1, count))), count, n - 1);
    }
  }

  /** With keyboard navigation off, no sequence of keys changes anything. */
  lemma {:induction false} DisabledIsInert(opts: ListOptions, s: ListState, count: nat, keys: seq<string>)
    requires !opts.enableKeyboardNavigation
    ensures PressKeys(opts, s, count, keys) == s
  {
    if |keys| > 0 {
      DisabledIsInert(opts, s, count, keys[1..]);
    }
  }

  /** The scroll a focus change makes is `scrollToIndex` of the clamped index. */
  lemma FocusScrollIsScrollToIndex(focus: Owned<int>, count: nat, requested: int)
    requires 0 <= Clamp(requested, count)
    ensures ScrollToIndex(Clamp(requested, count))[0] in SetFocused(focus, count, requested).effects
  {
  }

  /**
   * The hook tests' keyboard cases on three items: ArrowDown twice from "no
   * focus", ArrowUp and Home from the last item, End from "no focus", and
   * ArrowDown with navigation disabled.
   */
  lemma KeyboardExamples(ids: seq<string>)
    ensures
      var opts := DefaultListOptions.(enableKeyboardNavigation := true);
      var s := Mount(ids, None, false);
      var atLast := s.(focus := s.focus.(internal := 2));
      && Value(PressKeys(opts, s, 3, ["ArrowDown"]).focus) == 0
      && Value(PressKeys(opts, s, 3, ["ArrowDown", "ArrowDown"]).focus) == 1
      && Value(HandleKeyDown(opts, atLast, 3, "ArrowUp").state.focus) == 1
      && Value(HandleKeyDown(opts, atLast, 3, "Home").state.focus) == 0
      && Value(HandleKeyDown(opts, s, 3, "End").state.focus) == 2
      && Value(HandleKeyDown(DefaultListOptions, s, 3, "ArrowDown").state.focus) == NoFocus
  {
    var opts := DefaultListOptions.(enableKeyboardNavigation := true);
    var s := Mount(ids, None, false);
    assert ["ArrowDown", "ArrowDown"][1..] == ["ArrowDown"];
  }

}

=== FILE: virtual_table.dfy ===
/**
 * `useVirtualTable`: the table hook's own decisions on top of the table and
 * virtualizer libraries — per-row size estimates, focus, and the keyboard
 * handler with its selection and expansion toggles. Rows are those of the
 * table library's row model, in display order.
 */
module VirtualTable {
  import opened Wrappers
  import opened Effects
  import opened Ownership
  import opened Focus

  const DefaultRowHeight: int := 40
  const DefaultExpandedRowHeight: int := 200

  /** A row of the row model: its id and what the table library reports about it. */
  datatype Row = Row(id: string, canExpand: bool, isExpanded: bool)

  /** The options the model reads; the feature flags default to off. */
  datatype TableOptions = TableOptions(
    rowHeight: int,
    expandedRowHeight: int,
    enableRowSelection: bool,
    enableRowExpansion: bool,
    enableKeyboardNavigation: bool)

  const DefaultTableOptions: TableOptions :=
    TableOptions(DefaultRowHeight, DefaultExpandedRowHeight, false, false, false)

  /**
   * `estimateSize(index)`: the base row height, plus the expanded height for
   * an expanded row when expansion is on. An index with no row gets the base
   * height.
   */
  function EstimateSize(opts: TableOptions, rows: seq<Row>, index: int): (h: int)
    ensures !opts.enableRowExpansion ==> h == opts.rowHeight
    ensures !(0 <= index < |rows|) ==> h == opts.rowHeight
    ensures opts.enableRowExpansion && 0 <= index < |rows| ==>
              h == if rows[index].isExpanded then opts.rowHeight + opts.expandedRowHeight else opts.rowHeight
  {
    if !opts.enableRowExpansion then opts.rowHeight
    else if 0 <= index < |rows| && rows[index].isExpanded then opts.rowHeight + opts.expandedRowHeight
    else opts.rowHeight
  }

  /** The number of expanded rows among the first `n`. */
  function ExpandedCount(rows: seq<Row>, n: nat): nat
    requires n <= |rows|
  {
    if n == 0 then 0
    else ExpandedCount(rows, n - 1) + (if rows[n - 1].isExpanded then 1 else 0)
  }

  /** The sum of the estimates of the first `n` rows. */
  function EstimatedExtent(opts: TableOptions, rows: seq<Row>, n: nat): int
    requires n <= |rows|
  {
    if n == 0 then 0 else EstimatedExtent(opts, rows, n - 1) + EstimateSize(opts, rows, n - 1)
  }

  /**
   * The estimates add up to one base height per row, plus one expanded height
   * per expanded row when expansion is on.
   */
  lemma {:induction false} EstimatedExtentFormula(opts: TableOptions, rows: seq<Row>, n: nat)
    requires n <= |rows|
    ensures EstimatedExtent(opts, rows, n) ==
              n * opts.rowHeight + (if opts.enableRowExpansion then ExpandedCount(rows, n) * opts.expandedRowHeight else 0)
  {
    if n > 0 {
      EstimatedExtentFormula(opts, rows, n - 1);
    }
  }

  /**
   * `setFocusedRow(requested)`: the shared focus controller over `rows.length`.
   * Whatever is requested, only an existing row (or "no focus") is stored or
   * reported, and only an existing row is scrolled to.
   */
  function SetFocusedRow(focus: Owned<int>, rows: seq<Row>, requested: int): (r: FocusStep)
    ensures r.focus.controlled == focus.controlled && r.focus.hasCallback == focus.hasCallback
    ensures focus.hasCallback ==> r.focus == focus
    ensures !focus.hasCallback ==> r.focus.internal == Clamp(requested, |rows|)
    ensures forall i :: NotifyFocus(i) in r.effects <==> focus.hasCallback && i == Clamp(requested, |rows|)
    ensures forall i, a :: ScrollTo(i, a) in r.effects <==> 0 <= Clamp(requested, |rows|) && i == Clamp(requested, |rows|) && a == Auto
    ensures !focus.hasCallback ==> NoFocus <= r.focus.internal < |rows|
    ensures forall i :: NotifyFocus(i) in r.effects ==> NoFocus <= i < |rows|
    ensures forall i, a :: ScrollTo(i, a) in r.effects ==> 0 <= i < |rows| && a == Auto
    ensures 0 <= requested < |rows| ==> ScrollTo(requested, Auto) in r.effects
    ensures |r.effects| == (if focus.hasCallback then 1 else 0) + (if 0 <= Clamp(requested, |rows|) then 1 else 0)
    ensures focus.hasCallback ==> r.effects[0] == NotifyFocus(Clamp(requested, |rows|))
    ensures |rows| == 0 ==> forall i, a :: ScrollTo(i, a) !in r.effects
  {
    SetFocused(focus, |rows|, requested)
  }

  /**
   * `handleKeyDown(e)`: nothing unless keyboard navigation is on. The
   * navigation keys move focus as in the list. Enter, when a row is focused
   * and expansion is on, suppresses the default and toggles expansion if that
   * row exists and can expand. Space, when a row is focused and selection is
   * on, suppresses the default and toggles selection if that row exists.
   * Neither changes focus; any other key does nothing.
   */
  function HandleKeyDown(opts: TableOptions, focus: Owned<int>, rows: seq<Row>, key: string): (r: FocusStep)
    ensures !opts.enableKeyboardNavigation ==> r == FocusStep(focus, [])
    ensures ParseNavKey(key).None? ==> r.focus == focus
    ensures PreventDefault in r.effects <==>
              && opts.enableKeyboardNavigation
              && (|| ParseNavKey(key).Some?
                  || (key == "Enter" && Value(focus) >= 0 && opts.enableRowExpansion)
                  || (key == " " && Value(focus) >= 0 && opts.enableRowSelection))
    ensures forall i :: ToggleExpand(i) in r.effects <==>
              && opts.enableKeyboardNavigation && key == "Enter" && opts.enableRowExpansion
              && i == Value(focus) && 0 <= i < |rows| && rows[i].canExpand
    ensures forall i :: ToggleSelect(i) in r.effects <==>
              && opts.enableKeyboardNavigation && key == " " && opts.enableRowSelection
              && i == Value(focus) && 0 <= i < |rows|
    ensures opts.enableKeyboardNavigation && ParseNavKey(key).Some? ==>
              r == Navigate(focus, |rows|, ParseNavKey(key).value)
    ensures opts.enableKeyboardNavigation && ParseNavKey(key).None? ==>
              forall e :: e in r.effects ==> e == PreventDefault || e.ToggleExpand? || e.ToggleSelect?
    ensures r.effects != [] ==> r.effects[0] == PreventDefault
    ensures ParseNavKey(key).None? ==> |r.effects| <= 2
  {
    if !opts.enableKeyboardNavigation then FocusStep(focus, [])
    else
      var current := Value(focus);
      match ParseNavKey(key)
      case Some(k) => Navigate(focus, |rows|, k)
      case None =>
        if key == "Enter" then
          if current >= 0 && opts.enableRowExpansion then
            var toggle := if current < |rows| && rows[current].canExpand then [ToggleExpand(current)] else [];
            FocusStep(focus, [PreventDefault] + toggle)
          else FocusStep(focus, [])
        else if key == " " then
          if current >= 0 && opts.enableRowSelection then
            var toggle := if current < |rows| then [ToggleSelect(current)] else [];
            FocusStep(focus, [PreventDefault] + toggle)
          else FocusStep(focus, [])
        else FocusStep(focus, [])
  }

  /** A column sort: `{ id, desc }`. */
  datatype ColumnSort = ColumnSort(id: string, desc: bool)

  /**
   * The hook tests' state-handler cases: an uncontrolled table records a
   * selection and a sort; a controlled selection stays the host's while the
   * callback receives the updated selection.
   */
  lemma StateHandlerExamples()
    ensures
      var selection: Owned<map<string, bool>> := Owned(None, map[], false);
      var r := HandleChange(selection, Update((m: map<string, bool>) => m["0" := true]));
      Value(r.owned) == map["0" := true] && r.notified == None
    ensures
      var sorting: Owned<seq<ColumnSort>> := Owned(None, [], false);
      Value(HandleChange(sorting, Replace([ColumnSort("name", false)])).owned) == [ColumnSort("name", false)]
    ensures
      var selection: Owned<map<string, bool>> := Owned(Some(map["1" := true]), map[], true);
      var r := HandleChange(selection, Update((m: map<string, bool>) => m["0" := true]));
      Value(r.owned) == map["1" := true] && r.notified == Some(map["1" := true, "0" := true])
  {
  }

  /** The hook's default row heights, and the estimate of an expanded row. */
  lemma EstimateExamples()
    ensures EstimateSize(DefaultTableOptions, [Row("0", true, true)], 0) == 40
    ensures EstimateSize(DefaultTableOptions.(enableRowExpansion := true), [Row("0", true, true)], 0) == 240
    ensures EstimateSize(DefaultTableOptions.(enableRowExpansion := true), [Row("0", true, true)], 1) == 40
  {
  }

  /** The focus after pressing `keys` in order, starting from `focus`. */
  function PressKeys(opts: TableOptions, focus: Owned<int>, rows: seq<Row>, keys: seq<string>): Owned<int>
    decreases |keys|
  {
    if |keys| == 0 then focus
    else PressKeys(opts, HandleKeyDown(opts, focus, rows, keys[0]).focus, rows, keys[1..])
  }

  /** With keyboard navigation off, no sequence of keys changes the focus state. */
  lemma {:induction false} DisabledIsInert(opts: TableOptions, focus: Owned<int>, rows: seq<Row>, keys: seq<string>)
    requires !opts.enableKeyboardNavigation
    ensures PressKeys(opts, focus, rows, keys) == focus
    decreases |keys|
  {
    if |keys| > 0 {
      DisabledIsInert(opts, focus, rows, keys[1..]);
    }
  }

  /**
   * Enter and Space never move focus, whatever the options, rows and focus:
   * the focus state is unchanged, the host is not notified, nothing scrolls,
   * and at most the focused row is toggled.
   */
  lemma EnterAndSpaceKeepFocus(opts: TableOptions, focus: Owned<int>, rows: seq<Row>, key: string)
    requires key == "Enter" || key == " "
    ensures
      var r := HandleKeyDown(opts, focus, rows, key);
      && r.focus == focus
      && Value(r.focus) == Value(focus)
      && (forall i, a :: ScrollTo(i, a) !in r.effects)
      && (forall i :: NotifyFocus(i) !in r.effects)
      && (forall e :: e in r.effects && (e.ToggleExpand? || e.ToggleSelect?) ==> e.row == Value(focus))
  {
    var r := HandleKeyDown(opts, focus, rows, key);
    assert ParseNavKey(key).None?;
    forall e | e in r.effects && (e.ToggleExpand? || e.ToggleSelect?)
      ensures e.row == Value(focus)
    {
      if e.ToggleExpand? {
        assert ToggleExpand(e.row) in r.effects;
      } else {
        assert ToggleSelect(e.row) in r.effects;
      }
    }
  }

  /** Three plain rows, as in the hook tests' keyboard cases. */
  const ThreeRows: seq<Row> := [Row("0", false, false), Row("1", false, false), Row("2", false, false)]

  /** One navigation key on a table that owns its focus and has no callback. */
  lemma NavigationStep(opts: TableOptions, focus: Owned<int>, rows: seq<Row>, key: string)
    requires opts.enableKeyboardNavigation && ParseNavKey(key).Some?
    requires focus.controlled.None? && !focus.hasCallback
    ensures HandleKeyDown(opts, focus, rows, key).focus
            == focus.(internal := Clamp(Requested(ParseNavKey(key).value, focus.internal, |rows|), |rows|))
  {
  }

  /**
   * The hook tests' navigation cases on three rows: ArrowDown, ArrowDown,
   * ArrowUp from "no focus", and End then Home.
   */
  lemma NavigationExamples()
    ensures
      var opts := DefaultTableOptions.(enableKeyboardNavigation := true);
      var start := Owned(None, NoFocus, false);
      && Value(PressKeys(opts, start, ThreeRows, ["ArrowDown", "ArrowDown", "ArrowUp"])) == 0
      && Value(PressKeys(opts, start, ThreeRows, ["End", "Home"])) == 0
  {
    var opts := DefaultTableOptions.(enableKeyboardNavigation := true);
    var start := Owned(None, NoFocus, false);
    assert ParseNavKey("ArrowDown") == Some(ArrowDown);
    assert ParseNavKey("ArrowUp") == Some(ArrowUp);
    assert ParseNavKey("End") == Some(End);
    assert ParseNavKey("Home") == Some(Home);
    NavigationStep(opts, start, ThreeRows, "ArrowDown");
    var f1 := start.(internal := 0);
    NavigationStep(opts, f1, ThreeRows, "ArrowDown");
    var f2 := start.(internal := 1);
    NavigationStep(opts, f2, ThreeRows, "ArrowUp");
    assert ["ArrowDown", "ArrowDown", "ArrowUp"][1..] == ["ArrowDown", "ArrowUp"];
    assert ["ArrowDown", "ArrowUp"][1..] == ["ArrowUp"];
    NavigationStep(opts, start, ThreeRows, "End");
    NavigationStep(opts, start.(internal := 2), ThreeRows, "Home");
    assert ["End", "Home"][1..] == ["Home"];
  }

  /**
   * The hook tests' Space case: row 0 focused with selection on prevents the
   * default and toggles row 0; with navigation disabled ArrowDown does nothing.
   */
  lemma SpaceAndDisabledExamples()
    ensures
      var opts := DefaultTableOptions.(enableKeyboardNavigation := true, enableRowSelection := true);
      var start := Owned(None, NoFocus, false);
      && HandleKeyDown(opts, start.(internal := 0), ThreeRows, " ")
         == FocusStep(start.(internal := 0), [PreventDefault, ToggleSelect(0)])
      && HandleKeyDown(DefaultTableOptions, start, ThreeRows, "ArrowDown") == FocusStep(start, [])
  {
  }

}

=== FILE: wrappers.dfy ===
/** Optional values: the model's stand-in for JavaScript's `null` / `undefined`. */
module Wrappers {

  datatype Option<+T> = None | Some(value: T) {

    /** The `??` operator: this value when present, otherwise `default`. */
    function GetOr(default: T): (v: T)
      ensures Some? ==> v == value
      ensures None? ==> v == default
    {
      if Some? then value else default
    }
  }
}
